=== FILE: README.md ===
# TourPlanner screen, modelled in Dafny

TourPlanner is a single React Native screen that keeps a list of tour destinations. Each
destination has an id, a name, a day number, a "completed" tick and a "selected for distance"
flag. The user can:

- tick a destination off;
- select at most two destinations and open a maps route between them;
- add a destination, which lands on the latest day;
- rename a destination or move it to another day by typing into its day field;
- delete a destination after confirming.

The view mode lists the destinations in "Day k" sections. The edit mode lists them sorted by day.

This project models that logic as pure functions on `seq<Destination>` and proves what the
screen promises about it. The modules are:

- `Optional` holds the option type.
- `Seqs` holds a generic filter and its lemmas.
- `Destinations` holds the record type, the selection cap (2) and the cap warning text. It also
  defines the selected list, the listing day (a missing day, 0, falls back to 1) and id lookup.
- `JsNumbers` holds JavaScript's `parseInt` with no radix, as ECMA-262 defines it: leading
  StrWhiteSpaceChar skipped, optional sign, `0x`/`0X` prefix, longest digit run, NaN as `None`.
  It also holds the decimal text of a natural number.
- `Store` holds one function per action: toggle completed, toggle selection with the cap and
  its warning, open maps, add, update, the day field's text handling, and delete.
- `DaySort` holds the stable sort by day that both lists use. It is characterised independently
  as sorted, with the records of each day in their original order, and proved to be the only
  such arrangement.
- `Sections` holds the view mode's sections memo:
  - the sorted collection is grouped into a map keyed by listing day;
  - the keys are listed the way `Object.keys` lists them here, in ascending numeric order
    (ECMA-262 section 10.1.11.1, OrdinaryOwnPropertyKeys, for keys below 2^32 - 1);
  - each key is read back through `parseInt` of its decimal text;
  - each key gives one section titled "Day k".

  `SectionsAsWritten` follows the code step by step. `SectionsOf` reads the grouped map
  directly, and `SectionsAsWrittenAgree` proves the two equal; the other lemmas are stated
  about `SectionsOf`.
- `Screen` holds every action as one step, and the invariant every step keeps: ids are unique
  and at most two records are selected. It also holds end-to-end scenarios.

Day 0 is sorted first, since the sort key counts a missing day as 0. It is listed under
"Day 1", since the grouping key counts a missing day as 1. `Sections.DayZeroUnderDayOne` and `Sections.DayZeroListedFirst` state it.

## Model

| member | source | states |
|---|---|---|
| Destinations.GroupDay | App.tsx:149 | a record's listing day is never 0: a set day is kept, and a missing day (0) counts as day 1 |
| Destinations.Selected | App.tsx:106 | `getSelected`, the filter on the selection flag; SelectedMembers characterises it |
| Destinations.SelectedMembers | App.tsx:106 | the selected list holds only records whose selection flag is set, every such record, and nothing the collection does not hold |
| Destinations.SelectedCount | App.tsx:106 | the number of selected records is at most the collection's length; SelectedCountZero gives when it is 0 |
| Destinations.SelectedCountZero | App.tsx:106 | no record is counted as selected exactly when no selection flag is set |
| Destinations.FindIndex | App.tsx:121-122 | no index exactly when no record has the id; otherwise the index is in range, carries the id, and is the first such |
| Destinations.FindIndexUnique | App.tsx:121 | with unique ids, the lookup of record k's id finds k |
| JsNumbers.ParseInt | App.tsx:303 | parseInt with no radix; a negative value only comes from a leading minus after the white space. ParseIntNatToString, ParseIntSkipsSpace, ParseIntNegative and ParseIntOfDecimal characterise the rest |
| JsNumbers.TrimStart | App.tsx:303 | parseInt's first step drops a prefix made only of white space and stops at a non-space character |
| JsNumbers.DigitRun | App.tsx:303 | the digits parseInt reads are the longest digit prefix: all digits, followed by a non-digit or the end |
| JsNumbers.NatToString | App.tsx:188 | the decimal text of a day is non-empty, digits only, with no leading zero |
| JsNumbers.NatToStringValue | App.tsx:188 | the decimal text's digits spell the number back |
| JsNumbers.ParseIntOfDecimal | App.tsx:189 | parseInt reads a number's decimal text back when the text after it does not continue the number: no decimal digit, and no `x`/`X` after a lone `0` |
| JsNumbers.ParseIntNatToString | App.tsx:187-189 | parseInt of a group key's text gives the key back, so every section finds its group |
| JsNumbers.NatToStringInjective | App.tsx:188 | different days have different decimal texts |
| JsNumbers.ParseIntSkipsSpace | App.tsx:303 | leading white space typed into a day field does not change the day read |
| JsNumbers.ParseIntNegative | App.tsx:303 | a leading minus sign negates what parseInt reads, and NaN stays NaN |
| Store.MapMatching | App.tsx:162-164 | records with the id get the change, every other record is kept, and the length is kept |
| Store.ToggleComplete | App.tsx:114-118 | ids are unchanged, only the completed flag can change, and it changes exactly on the records with the id |
| Store.ToggleCompleteTwice | App.tsx:114-118 | toggling the same id twice restores the collection |
| Store.ToggleSelection | App.tsx:120-134 | an unknown id does nothing; a warning always comes with the exact cap text, an unchanged collection and a count at the cap; without a warning the length is kept, records with the id get their selection flag flipped, and every other record is unchanged |
| Store.FlipSelectedAt | App.tsx:131-133 | with unique ids, a toggle flips only record k's selection flag |
| Store.ToggleSelectionRefusal | App.tsx:124-129 | the cap warning is raised if and only if the record is unselected and two are already selected |
| Store.ToggleSelectionDeselects | App.tsx:126-133 | deselecting is never refused, clears exactly that record's flag and lowers the count by one |
| Store.ToggleSelectionSelects | App.tsx:126-133 | selecting below the cap sets exactly that record's flag and raises the count by one |
| Store.ToggleSelectionKeepsCap | App.tsx:120-134 | with unique ids, a toggle keeps the ids and never takes the selected count above two |
| Store.DuplicateIdsBreakCap | App.tsx:131-133 | with a duplicated id, one toggle can take the count from one to three, so the cap relies on unique ids |
| Store.ClearAllSelections | App.tsx:144 | no record stays selected, and every other field of every record is kept |
| Store.OpenMaps | App.tsx:136-146 | a route exists if and only if exactly two records are selected; then all selections are cleared, otherwise nothing changes |
| Store.OpenMapsRoute | App.tsx:137-140 | the route runs from the earlier selected record's name to the later one's, in collection order |
| Store.MaxGroupDay | App.tsx:149 | the default day is at least 1, at least every record's listing day, equal to one of them, and 1 for an empty collection |
| Store.NewDestination | App.tsx:149-157 | the new record has the given id, an empty name, nothing ticked, and as its day the largest listing day of the collection (each record's day, a missing one counted as 1), or 1 for an empty collection |
| Store.AddNewDestination | App.tsx:148-159 | the existing records are kept in place and the new record is appended last |
| Store.AddKeepsInvariant | App.tsx:148-159 | with a fresh id, adding keeps ids unique and the selected count unchanged |
| Store.UpdateDestination | App.tsx:161-165 | ids are unchanged, other records are untouched, and matching records change only in the edited field |
| Store.UpdateKeepsSelection | App.tsx:161-165 | an edit never changes the selected count |
| Store.SameFlagsSameCount | App.tsx:106 | the selected count depends only on the selection flags, position by position |
| Store.DayFromInput | App.tsx:303 | the day read from typed text, NaN read as 0; it is negative only when the text starts with a minus after the white space. DayFieldRoundTrip and NumberPadDay characterise it |
| Store.DayText | App.tsx:301 | the text a day field shows is empty exactly for day 0 and otherwise made of decimal digits only |
| Store.DayFieldRoundTrip | App.tsx:301-303 | reading back the text a day field shows gives the stored day, day 0 included |
| Store.NumberPadDay | App.tsx:302-303 | number-pad text (digits only) is stored as the decimal number it spells, never negative |
| Store.EditDayText | App.tsx:303 | typing into a day field changes only that record's day, to the value parsed from the text |
| Store.DeleteDestination | App.tsx:167-174 | a cancelled delete changes nothing; a confirmed one leaves no record with the id, keeps every other record, never adds one, and changes nothing when no record has the id |
| Store.DeleteAppend | App.tsx:171 | a confirmed delete acts on each part of the collection separately, so the kept records stay in collection order, duplicated ids included |
| Store.DeleteRemovesOne | App.tsx:171 | with unique ids, a confirmed delete removes exactly that record and keeps the rest in order |
| DaySort.Insert | App.tsx:178 | inserting into a day-sorted list keeps it sorted and adds one element |
| DaySort.SortByDay | App.tsx:293-294 | the edit list is sorted by day and as long as the collection |
| DaySort.SortByDayPermutes | App.tsx:178 | the sorted list is a permutation of the collection |
| DaySort.SortByDayIsStable | App.tsx:178 | the sort is stable: sorted, and for every day the records keep their collection order |
| DaySort.SortByDayKeepsDay | App.tsx:293-294 | the records of any one day appear in the edit list in collection order |
| DaySort.StableSortUnique | App.tsx:178 | two day-sorted lists with the same records per day, in the same order, are equal |
| Sections.InGroup | App.tsx:181-185 | every record in a day's group has that listing day |
| Sections.InGroupEmpty | App.tsx:183 | a day's group is empty exactly when no record is listed under that day |
| Sections.GroupByDay | App.tsx:180-185 | the grouped object has exactly the listing days as keys, each holding that day's records in order |
| Sections.Least | App.tsx:187 | the first key listed is in the key set and no greater than any other key |
| Sections.AscendingKeys | App.tsx:187 | the keys are listed strictly ascending, each key exactly once |
| Sections.GroupByDayIsGrouped | App.tsx:180-185 | the push loop builds exactly the map from each listing day to that day's records in order |
| Sections.SectionsAsWritten | App.tsx:177-191 | the memo step by step: stable sort, push loop, keys in `Object.keys` order, one section per key through the parseInt lookup. SectionsAsWrittenAgree ties it to SectionsOf |
| Sections.SectionsOf | App.tsx:177-191 | the memo read from the grouped map directly. SectionsLayout, SectionsByDay, SectionsFlatten, SectionsNonEmpty, SectionsOrderedWithin and SectionTitlesDistinct characterise it |
| Sections.SectionAsWritten | App.tsx:187-190 | a key's section is titled "Day " plus its decimal text and holds the group that parseInt of that text finds, which is that key's group |
| Sections.SectionsAsWrittenAgree | App.tsx:177-191 | the memo as written, with its push loop and its parseInt lookups, gives the same sections as grouping the sorted records per listed day |
| Sections.SectionsByDay | App.tsx:177-191 | section i is titled with the i-th ascending listing day and holds that day's records of the sorted list |
| Sections.SectionsNonEmpty | App.tsx:181-185 | every section holds at least one record |
| Sections.SectionsFlatten | App.tsx:177-191 | the sections read top to bottom are exactly the stable day sort of the collection |
| Sections.SectionsLayout | App.tsx:177-191 | one non-empty section per listing day, each with its title and only its day's records; read top to bottom they are the stable day sort, a permutation of the collection |
| Sections.SectionsOrderedWithin | App.tsx:178-185 | inside each section the records are sorted by day |
| Sections.DayZeroUnderDayOne | App.tsx:182 | a record with day 0 sits in the section titled "Day 1" |
| Sections.DayZeroListedFirst | App.tsx:178 | inside a section, a day-0 record never comes after a day-1 record |
| Sections.SectionTitlesDistinct | App.tsx:187-188 | no two sections share a title |
| Screen.DeleteKeepsInvariant | App.tsx:167-174 | a delete, confirmed or not, keeps ids unique and the cap respected |
| Screen.DispatchKeepsInvariant | App.tsx:113-174 | every action keeps ids unique and at most two records selected, given that added ids are fresh |
| Screen.RunKeepsInvariant | App.tsx:113-174 | any sequence of actions with fresh added ids keeps the invariant |
| Screen.ThirdSelectionRefused | App.tsx:120-134 | from no selection, selecting two records succeeds and a third is refused with the cap warning and no change |
| Screen.SelectTwo | App.tsx:120-134 | from no selection, two selections succeed and change only the two selection flags, keeping ids unique with two selected |
| Screen.DistanceAfterTwoSelections | App.tsx:136-146 | after selecting two records in either order, the route runs in collection order and all selections are cleared |
| Screen.AddedRecordListedLast | App.tsx:148-159 | a new record comes last in the edit list and in the sections read top to bottom, and nothing else moves |

## Left out

- Rendering, styles, the edit-mode switch and the keyboard: they hold no logic beyond choosing a view.
- Loading from and saving to AsyncStorage, and the ready flag that gates saving (App.tsx:73-103): these are I/O. Loaded data is not checked by the source, which is why the invariant is an assumption about the starting collection.
- Opening the maps URL and `encodeURIComponent`: the model returns the route's two names instead of the URL.
- Store.OpenMaps: names and ids are strings of Unicode scalar values here, not UTF-16 code units, so a name holding a lone surrogate cannot be written down. For such a name the source's `encodeURIComponent` throws a URIError at App.tsx:139-140, before the selection is cleared at App.tsx:144, so both records stay selected. `Store.OpenMaps` always clears the selection when two records are selected.
- The confirmation dialog: its answer is the `confirmed` parameter.
- The three-second timer that clears the warning: the model returns the warning with the step that raised it.
- `Date.now()` ids: the fresh id is a parameter. Uniqueness of ids is assumed of it where a lemma needs it.
- Stale reads: the source reads the rendered collection in some handlers and the latest one in its updaters. Each action is modelled as one atomic step on the current collection.
- Days that are negative, fractional or NaN: `day` is a natural number here, and 0 stands for a missing day.
- Store.EditDayText: requires that the typed text does not parse to a negative number. The number pad cannot type a minus sign, but pasted text such as "-3" can reach the handler, and the source would then store a negative day.
- Large days: days are unbounded natural numbers here, but JavaScript days are doubles. They are exact only up to 2^53. Above that `String` prints the shortest digits that read back to the same double, padded with zeros (`String(2**64)` is "18446744073709552000"), and from 10^21 on an exponent form (so the source would title such a section "Day 1e+21" and look up group 1). `Object.keys` lists keys from 2^32 - 1 on in creation order. So `JsNumbers.ParseInt`, `JsNumbers.NatToString`, `JsNumbers.ParseIntOfDecimal`, `JsNumbers.ParseIntNatToString`, `Store.NumberPadDay`, `Store.DayFieldRoundTrip` and `Sections.SectionAsWritten` match the source only below 2^53; typing "9007199254740993", for instance, stores 9007199254740992 in the source. `Sections.AscendingKeys` models the numeric order `Object.keys` gives below 2^32 - 1; above it the source's keys still come out ascending, because the sorted records are pushed in ascending day order.
- `updateDestination` with a field other than name or day: the screen only edits those two.

=== FILE: daysort.dfy ===
/** The collection copied and sorted by day, a missing day counting as 0. With natural-number days
    the sort key is the day itself, and `Array.prototype.sort` is stable, so the result is the
    stable sort of the collection by day. It is computed here by insertion and characterised
    independently: sorted, and the records of every single day in their original order. */
module DaySort {
  import opened Seqs
  import opened Destinations

  predicate SortedByDay(s: seq<Destination>)
  {
    forall i, j :: 0 <= i < j < |s| ==> s[i].day <= s[j].day
  }

  /** The records of day `v`, in collection order. */
  function OnDay(s: seq<Destination>, v: nat): seq<Destination>
  {
    Filter(s, (d: Destination) => d.day == v)
  }

  /** A stable sort of `s` by day: ordered by day, and for each day the same records in the
      same order as in `s`. */
  ghost predicate IsStableSortByDay(r: seq<Destination>, s: seq<Destination>)
  {
    SortedByDay(r) && forall v: nat :: OnDay(r, v) == OnDay(s, v)
  }

  /** Places `x` in front of the first record whose day is at least its own. */
  function Insert(x: Destination, s: seq<Destination>): (r: seq<Destination>)
    requires SortedByDay(s)
    ensures SortedByDay(r)
    ensures |r| == |s| + 1
    ensures r[0] == x || (s != [] && r[0] == s[0])
  {
    if s == [] || x.day <= s[0].day then [x] + s
    else
      var rest := Insert(x, s[1..]);
      assert s == [s[0]] + s[1..];
      [s[0]] + rest
  }

  /** The stable sort, inserting each record into the sorted rest. */
  function SortByDay(s: seq<Destination>): (r: seq<Destination>)
    ensures SortedByDay(r)
    ensures |r| == |s|
  {
    if s == [] then [] else Insert(s[0], SortByDay(s[1..]))
  }

  lemma {:induction false} InsertPermutes(x: Destination, s: seq<Destination>)
    requires SortedByDay(s)
    ensures multiset(Insert(x, s)) == multiset(s) + multiset{x}
  {
    if s != [] && x.day > s[0].day {
      InsertPermutes(x, s[1..]);
      assert s == [s[0]] + s[1..];
    }
  }

  lemma {:induction false} ConsPermutes(s: seq<Destination>, t: seq<Destination>, u: seq<Destination>)
    requires s != []
    requires multiset(t) == multiset(s[1..])
    requires multiset(u) == multiset(t) + multiset{s[0]}
    ensures multiset(u) == multiset(s)
  {
    assert s == [s[0]] + s[1..];
  }

  /** Sorting neither loses nor duplicates a record. */
  lemma {:induction false} SortByDayPermutes(s: seq<Destination>)
    ensures multiset(SortByDay(s)) == multiset(s)
  {
    if s != [] {
      var t := SortByDay(s[1..]);
      assert SortByDay(s) == Insert(s[0], t);
      SortByDayPermutes(s[1..]);
      InsertPermutes(s[0], t);
      ConsPermutes(s, t, Insert(s[0], t));
    }
  }

  lemma {:induction false} OnDayCons(x: Destination, s: seq<Destination>, v: nat)
    ensures OnDay([x] + s, v) == (if x.day == v then [x] else []) + OnDay(s, v)
  {
    assert ([x] + s)[1..] == s;
  }

  /** The first record's day has at least that record. */
  lemma {:induction false} OnDayOfHead(s: seq<Destination>)
    requires s != []
    ensures OnDay(s, s[0].day) != []
  {
    OnDayCons(s[0], s[1..], s[0].day);
    assert s == [s[0]] + s[1..];
  }

  /** Inserting only passes records of smaller days, so no day's order changes. */
  lemma {:induction false} InsertStable(x: Destination, s: seq<Destination>, v: nat)
    requires SortedByDay(s)
    ensures OnDay(Insert(x, s), v) == OnDay([x] + s, v)
  {
    if s != [] && x.day > s[0].day {
      var rest := Insert(x, s[1..]);
      SortedTail(s);
      InsertStable(x, s[1..], v);
      PassOne(x, s[0], s[1..], rest, v);
      assert Insert(x, s) == [s[0]] + rest;
      assert s == [s[0]] + s[1..];
    } else {
      assert Insert(x, s) == [x] + s;
    }
  }

  /** Moving `x` past a record of another day changes no day's records. */
  lemma {:induction false} PassOne(x: Destination, y: Destination, t: seq<Destination>, rest: seq<Destination>, v: nat)
    requires x.day != y.day
    requires OnDay(rest, v) == OnDay([x] + t, v)
    ensures OnDay([y] + rest, v) == OnDay([x] + ([y] + t), v)
  {
    OnDayCons(y, rest, v);
    OnDayCons(x, t, v);
    OnDayCons(x, [y] + t, v);
    OnDayCons(y, t, v);
    var onX := if x.day == v then [x] else [];
    var onY := if y.day == v then [y] else [];
    assert onX == [] || onY == [];
    assert OnDay([y] + rest, v) == onY + (onX + OnDay(t, v));
    assert OnDay([x] + ([y] + t), v) == onX + (onY + OnDay(t, v));
  }

  lemma {:induction false} SortedTail(s: seq<Destination>)
    requires s != [] && SortedByDay(s)
    ensures SortedByDay(s[1..])
  {
    forall i, j | 0 <= i < j < |s[1..]|
      ensures s[1..][i].day <= s[1..][j].day
    {
      assert s[1..][i] == s[i + 1] && s[1..][j] == s[j + 1];
    }
  }

  /** The insertion sort is a stable sort by day. */
  lemma {:induction false} SortByDayIsStable(s: seq<Destination>)
    ensures IsStableSortByDay(SortByDay(s), s)
  {
    forall v: nat
      ensures OnDay(SortByDay(s), v) == OnDay(s, v)
    {
      SortByDayKeepsDay(s, v);
    }
  }

  lemma {:induction false} SortByDayKeepsDay(s: seq<Destination>, v: nat)
    ensures OnDay(SortByDay(s), v) == OnDay(s, v)
  {
    if s != [] {
      SortByDayKeepsDay(s[1..], v);
      InsertStable(s[0], SortByDay(s[1..]), v);
      OnDayCons(s[0], SortByDay(s[1..]), v);
      OnDayCons(s[0], s[1..], v);
      assert s == [s[0]] + s[1..];
    }
  }

  /** There is only one stable sort: two sequences ordered by day that agree on every day's
      records are equal. So any stable sort, the engine's included, gives `SortByDay`. */
  lemma {:induction false} StableSortUnique(a: seq<Destination>, b: seq<Destination>)
    requires SortedByDay(a) && SortedByDay(b)
    requires forall v: nat :: OnDay(a, v) == OnDay(b, v)
    ensures a == b
  {
    if a == [] || b == [] {
      if a != [] {
        OnDayOfHead(a);
      } else if b != [] {
        OnDayOfHead(b);
      }
    } else {
      SameHead(a, b);
      SameTails(a, b);
      SortedTail(a);
      SortedTail(b);
      StableSortUnique(a[1..], b[1..]);
      assert a == [a[0]] + a[1..];
      assert b == [b[0]] + b[1..];
    }
  }

  /** Two day-sorted lists with the same records per day start with the same record. */
  lemma {:induction false} SameHead(a: seq<Destination>, b: seq<Destination>)
    requires a != [] && b != [] && SortedByDay(a) && SortedByDay(b)
    requires forall v: nat :: OnDay(a, v) == OnDay(b, v)
    ensures a[0] == b[0]
  {
    var m, n := a[0].day, b[0].day;
    OnDayCons(a[0], a[1..], m);
    OnDayCons(b[0], b[1..], n);
    assert a == [a[0]] + a[1..];
    assert b == [b[0]] + b[1..];
    if m < n {
      FilterKeepsNone(b, (d: Destination) => d.day == m);
      assert false;
    }
    if n < m {
      FilterKeepsNone(a, (d: Destination) => d.day == n);
      assert false;
    }
    assert OnDay(a, m)[0] == a[0] && OnDay(b, m)[0] == b[0];
  }

  /** Dropping the same first record keeps the records per day equal. */
  lemma {:induction false} SameTails(a: seq<Destination>, b: seq<Destination>)
    requires a != [] && b != [] && a[0] == b[0]
    requires forall v: nat :: OnDay(a, v) == OnDay(b, v)
    ensures forall v: nat :: OnDay(a[1..], v) == OnDay(b[1..], v)
  {
    forall v: nat
      ensures OnDay(a[1..], v) == OnDay(b[1..], v)
    {
      OnDayCons(a[0], a[1..], v);
      OnDayCons(b[0], b[1..], v);
      assert a == [a[0]] + a[1..];
      assert b == [b[0]] + b[1..];
      var h := if a[0].day == v then [a[0]] else [];
      assert OnDay(a[1..], v) == (h + OnDay(a[1..], v))[|h|..];
      assert OnDay(b[1..], v) == (h + OnDay(b[1..], v))[|h|..];
    }
  }
}

=== FILE: destinations.dfy ===
/** The record the whole screen is about, and the read-only questions the actions ask of a collection. */
module Destinations {
  import opened Optional
  import opened Seqs

  /** One planned stop. `day` is a natural number: the day field is edited on a number pad
      and unreadable input is stored as 0. The number pad cannot type a minus sign, though pasted
      text such as "-3" would reach the source as a negative day; that case is left out. */
  datatype Destination = Destination(
    id: string,
    name: string,
    day: nat,
    completed: bool,
    selectedForDistance: bool)

  /** At most this many records may be selected for the distance action. */
  const MaxSelection: nat := 2

  /** The message shown when a selection is refused by the cap. */
  const CapWarning: string := "Max 2 locations for distance"

  /** The day a record is listed under: its day, with a missing day (0) falling back to day 1. */
  function GroupDay(d: Destination): (k: nat)
    ensures k >= 1
    ensures d.day >= 1 ==> k == d.day
    ensures d.day == 0 ==> k == 1
  {
    if d.day == 0 then 1 else d.day
  }

  predicate IsSelected(d: Destination)
  {
    d.selectedForDistance
  }

  /** `getSelected`: the selected records in collection order. */
  function Selected(ds: seq<Destination>): seq<Destination>
  {
    Filter(ds, IsSelected)
  }

  /** The selected list holds only selected records, every selected record, and nothing the
      collection does not hold. */
  lemma SelectedMembers(ds: seq<Destination>)
    ensures forall i :: 0 <= i < |Selected(ds)| ==> Selected(ds)[i].selectedForDistance
    ensures forall i :: 0 <= i < |ds| && ds[i].selectedForDistance ==> ds[i] in Selected(ds)
    ensures multiset(Selected(ds)) <= multiset(ds)
  {
    FilterKeeps(ds, IsSelected);
    FilterSubMultiset(ds, IsSelected);
  }

  function SelectedCount(ds: seq<Destination>): (n: nat)
    ensures n <= |ds|
  {
    |Selected(ds)|
  }

  /** No record is counted as selected exactly when no selection flag is set. */
  lemma {:induction false} SelectedCountZero(ds: seq<Destination>)
    ensures SelectedCount(ds) == 0 <==> forall i :: 0 <= i < |ds| ==> !ds[i].selectedForDistance
  {
    SelectedMembers(ds);
    if forall i :: 0 <= i < |ds| ==> !ds[i].selectedForDistance {
      FilterKeepsNone(ds, IsSelected);
    }
  }

  /** The ids of a collection, position by position. */
  function Ids(ds: seq<Destination>): (r: seq<string>)
    ensures |r| == |ds|
    ensures forall i :: 0 <= i < |ds| ==> r[i] == ds[i].id
  {
    seq(|ds|, i requires 0 <= i < |ds| => ds[i].id)
  }

  predicate HasId(ds: seq<Destination>, id: string)
  {
    exists i :: 0 <= i < |ds| && ds[i].id == id
  }

  /** Ids identify records: the property id generation is meant to give every collection. */
  predicate UniqueIds(ds: seq<Destination>)
  {
    forall i, j :: 0 <= i < |ds| && 0 <= j < |ds| && ds[i].id == ds[j].id ==> i == j
  }

  /** The lookup `toggleSelection` starts with, as the position of the first record with that id. */
  function FindIndex(ds: seq<Destination>, id: string): (r: Option<nat>)
    ensures r.None? <==> !HasId(ds, id)
    ensures r.Some? ==> r.value < |ds| && ds[r.value].id == id
    ensures r.Some? ==> forall j :: 0 <= j < r.value ==> ds[j].id != id
  {
    if ds == [] then None
    else if ds[0].id == id then Some(0)
    else
      match FindIndex(ds[1..], id)
      case None =>
        assert forall i :: 1 <= i < |ds| ==> ds[i] == ds[1..][i - 1];
        None
      case Some(i) => Some(i + 1)
  }

  /** With unique ids, the record found is the only one carrying the id. */
  lemma {:induction false} FindIndexUnique(ds: seq<Destination>, id: string, k: nat)
    requires UniqueIds(ds)
    requires k < |ds| && ds[k].id == id
    ensures FindIndex(ds, id) == Some(k)
  {
  }
}

=== FILE: jsnumbers.dfy ===
/** The two number/text conversions the screen relies on, as JavaScript defines them for the
    values that occur here: `parseInt` with no radix (ECMA-262, the global `parseInt` function)
    and the decimal text of a non-negative integer (what `String(k)`, a template literal and
    `Object.keys` produce for an integer below 2^53; above that JavaScript prints the shortest
    digits that read back to the same double, padded with zeros, and from 10^21 on an exponent
    form, neither of which this model follows). Values are unbounded integers here, not
    doubles. */
module JsNumbers {
  import opened Optional

  /** A StrWhiteSpaceChar of ECMA-262: a WhiteSpace code point (tab, vertical tab, form feed,
      no-break space, byte order mark, any space separator) or a LineTerminator. */
  predicate IsStrWhiteSpace(c: char)
  {
    var n := c as int;
    || n == 0x09 || n == 0x0B || n == 0x0C || n == 0x20 || n == 0xA0 || n == 0xFEFF
    || n == 0x1680 || (0x2000 <= n <= 0x200A) || n == 0x202F || n == 0x205F || n == 0x3000
    || n == 0x0A || n == 0x0D || n == 0x2028 || n == 0x2029
  }

  /** The string with its leading white space removed. */
  function TrimStart(s: string): (r: string)
    ensures |r| <= |s| && r == s[|s| - |r|..]
    ensures r == [] || !IsStrWhiteSpace(r[0])
    ensures forall i :: 0 <= i < |s| - |r| ==> IsStrWhiteSpace(s[i])
  {
    if s != [] && IsStrWhiteSpace(s[0]) then
      var r := TrimStart(s[1..]);
      assert forall i :: 1 <= i < |s| ==> s[i] == s[1..][i - 1];
      r
    else s
  }

  /** The value of `c` as a digit of radix up to 36 (`0`-`9`, then letters in either case);
      36 for a character that is no digit at all. */
  function DigitValue(c: char): (v: nat)
    ensures v <= 36
  {
    if '0' <= c <= '9' then c as int - '0' as int
    else if 'a' <= c <= 'z' then c as int - 'a' as int + 10
    else if 'A' <= c <= 'Z' then c as int - 'A' as int + 10
    else 36
  }

  predicate IsDigit(c: char, radix: nat)
  {
    DigitValue(c) < radix
  }

  /** The length of the longest prefix of `s` made of radix digits. */
  function DigitRun(s: string, radix: nat): (n: nat)
    ensures n <= |s|
    ensures forall i :: 0 <= i < n ==> IsDigit(s[i], radix)
    ensures n < |s| ==> !IsDigit(s[n], radix)
  {
    if s != [] && IsDigit(s[0], radix) then
      var n := 1 + DigitRun(s[1..], radix);
      assert forall i :: 1 <= i < |s| ==> s[i] == s[1..][i - 1];
      n
    else 0
  }

  /** The number a digit string denotes, most significant digit first. */
  function DigitsValue(s: string, radix: nat): nat
  {
    if s == [] then 0 else DigitsValue(s[..|s| - 1], radix) * radix + DigitValue(s[|s| - 1])
  }

  /** `parseInt(s)`: skip leading white space, read an optional sign, then the digits.
      No digits at all gives NaN (`None`); a negative zero is the integer 0 here. */
  function ParseInt(s: string): (r: Option<int>)
    ensures r.Some? && r.value < 0 ==> TrimStart(s) != [] && TrimStart(s)[0] == '-'
  {
    ParseSigned(TrimStart(s))
  }

  function ParseSigned(t: string): Option<int>
  {
    if t != [] && t[0] == '-' then
      match ParseUnsigned(t[1..])
      case None => None
      case Some(v) => Some(-(v as int))
    else if t != [] && t[0] == '+' then
      match ParseUnsigned(t[1..])
      case None => None
      case Some(v) => Some(v)
    else
      match ParseUnsigned(t)
      case None => None
      case Some(v) => Some(v)
  }

  /** The unsigned part: radix 16 after a `0x` or `0X` prefix, radix 10 otherwise, and the
      longest run of digits of that radix. */
  function ParseUnsigned(u: string): Option<nat>
  {
    var hex := |u| >= 2 && u[0] == '0' && (u[1] == 'x' || u[1] == 'X');
    var radix := if hex then 16 else 10;
    var digits := if hex then u[2..] else u;
    var n := DigitRun(digits, radix);
    if n == 0 then None else Some(DigitsValue(digits[..n], radix))
  }

  function DigitChar(d: nat): (c: char)
    requires d < 10
    ensures '0' <= c <= '9' && DigitValue(c) == d
  {
    ('0' as int + d) as char
  }

  /** The decimal text of `n`: digits only, no sign, no leading zero. */
  function NatToString(n: nat): (s: string)
    ensures |s| >= 1
    ensures forall i :: 0 <= i < |s| ==> '0' <= s[i] <= '9'
    ensures s[0] == '0' ==> n == 0 && |s| == 1
  {
    if n < 10 then [DigitChar(n)] else NatToString(n / 10) + [DigitChar(n % 10)]
  }

  /** Reading back the decimal text of `n` gives `n`. */
  lemma {:induction false} NatToStringValue(n: nat)
    ensures DigitsValue(NatToString(n), 10) == n
  {
    var s := NatToString(n);
    if n >= 10 {
      assert s[..|s| - 1] == NatToString(n / 10);
      NatToStringValue(n / 10);
    } else {
      assert s[..|s| - 1] == [];
    }
  }

  /** A run of digits followed by a non-digit is read exactly up to that non-digit. */
  lemma {:induction false} DigitRunOfPrefix(a: string, b: string, radix: nat)
    requires forall i :: 0 <= i < |a| ==> IsDigit(a[i], radix)
    requires b == [] || !IsDigit(b[0], radix)
    ensures DigitRun(a + b, radix) == |a|
  {
    if a == [] {
      assert a + b == b;
    } else {
      assert (a + b)[1..] == a[1..] + b;
      DigitRunOfPrefix(a[1..], b, radix);
    }
  }

  /** `parseInt` reads back the decimal text of `k`, whatever follows it, as long as what follows
      does not continue the number: no further decimal digit, and no `x` turning a lone `0` into a
      hexadecimal prefix. */
  lemma {:induction false} ParseIntOfDecimal(k: nat, rest: string)
    requires rest == [] || !IsDigit(rest[0], 10)
    requires rest != [] && k == 0 ==> rest[0] != 'x' && rest[0] != 'X'
    ensures ParseInt(NatToString(k) + rest) == Some(k)
  {
    var a := NatToString(k);
    var s := a + rest;
    assert s[0] == a[0];
    TrimStartOfWord(s);
    UnsignedNoSign(s);
    assert !(|s| >= 2 && s[0] == '0' && (s[1] == 'x' || s[1] == 'X')) by {
      if |a| >= 2 {
        assert s[1] == a[1];
      } else if |s| >= 2 {
        assert s[1] == rest[0];
      }
    }
    DecimalDigits(a, rest);
    NatToStringValue(k);
  }

  /** Without a hexadecimal prefix, a digit run followed by a non-digit is read in decimal. */
  lemma {:induction false} DecimalDigits(a: string, rest: string)
    requires a != [] && forall i :: 0 <= i < |a| ==> '0' <= a[i] <= '9'
    requires rest == [] || !IsDigit(rest[0], 10)
    requires !(|a + rest| >= 2 && (a + rest)[0] == '0' && ((a + rest)[1] == 'x' || (a + rest)[1] == 'X'))
    ensures ParseUnsigned(a + rest) == Some(DigitsValue(a, 10))
  {
    var s := a + rest;
    assert forall i :: 0 <= i < |a| ==> IsDigit(a[i], 10);
    DigitRunOfPrefix(a, rest, 10);
    assert s[..|a|] == a;
  }

  /** Parsing the decimal text of any non-negative integer `k` gives back `k`. */
  lemma {:induction false} ParseIntNatToString(k: nat)
    ensures ParseInt(NatToString(k)) == Some(k)
  {
    ParseIntOfDecimal(k, "");
    assert NatToString(k) + "" == NatToString(k);
  }

  /** Different numbers have different decimal texts. */
  lemma {:induction false} NatToStringInjective(a: nat, b: nat)
    requires NatToString(a) == NatToString(b)
    ensures a == b
  {
    ParseIntNatToString(a);
    ParseIntNatToString(b);
  }

  /** Leading white space never changes what `parseInt` reads. */
  lemma {:induction false} ParseIntSkipsSpace(w: string, s: string)
    requires forall i :: 0 <= i < |w| ==> IsStrWhiteSpace(w[i])
    ensures ParseInt(w + s) == ParseInt(s)
  {
    TrimStartSkips(w, s);
  }

  lemma {:induction false} TrimStartSkips(w: string, s: string)
    requires forall i :: 0 <= i < |w| ==> IsStrWhiteSpace(w[i])
    ensures TrimStart(w + s) == TrimStart(s)
  {
    if w == [] {
      assert w + s == s;
    } else {
      assert (w + s)[1..] == w[1..] + s;
      TrimStartSkips(w[1..], s);
    }
  }

  /** A leading minus sign negates what follows it. */
  lemma {:induction false} ParseIntNegative(s: string)
    requires s == [] || !(IsStrWhiteSpace(s[0]) || s[0] == '-' || s[0] == '+')
    ensures ParseInt("-" + s) == (match ParseInt(s) case None => None case Some(v) => Some(-v))
  {
    var m := "-" + s;
    assert m[0] == '-' && m[1..] == s;
    TrimStartOfWord(m);
    TrimStartOfWord(s);
    SignedMinus(m);
    UnsignedNoSign(s);
    var u := ParseUnsigned(s);
    assert ParseInt(m) == (match u case None => None case Some(v) => Some(-(v as int)));
    assert ParseInt(s) == (match u case None => None case Some(v) => Some(v as int));
  }

  lemma {:induction false} TrimStartOfWord(t: string)
    requires t == [] || !IsStrWhiteSpace(t[0])
    ensures ParseInt(t) == ParseSigned(t)
  {
  }

  lemma {:induction false} SignedMinus(t: string)
    requires t != [] && t[0] == '-'
    ensures ParseSigned(t) == (match ParseUnsigned(t[1..]) case None => None case Some(v) => Some(-(v as int)))
  {
  }

  lemma {:induction false} UnsignedNoSign(t: string)
    requires t == [] || !(t[0] == '-' || t[0] == '+')
    ensures ParseSigned(t) == (match ParseUnsigned(t) case None => None case Some(v) => Some(v as int))
  {
  }
}

=== FILE: optional.dfy ===
/** The optional value used wherever the screen either has something or has nothing:
    a warning that may be showing, a route that may be opened, a number `parseInt` may fail to read. */
module Optional {

  datatype Option<+T> = None | Some(value: T)
}

=== FILE: screen.dfy ===
/** The screen as a whole: every user action as one step on the collection, the invariant all
    of them keep, and the end-to-end behaviours the actions promise together. */
module Screen {
  import opened Optional
  import opened Seqs
  import opened Destinations
  import opened Store
  import opened DaySort
  import opened Sections

  /** What the user can do to the collection. A new record's id is chosen by the caller. */
  datatype Action =
    | TapRecord(id: string)
    | TapSelect(id: string)
    | CalculateDistance
    | AddRecord(freshId: string)
    | EditRecord(id: string, edit: Edit)
    | RemoveRecord(id: string, confirmed: bool)

  /** The collection after one action. */
  function Dispatch(ds: seq<Destination>, a: Action): seq<Destination>
  {
    match a
    case TapRecord(id) => ToggleComplete(ds, id)
    case TapSelect(id) => ToggleSelection(ds, id).collection
    case CalculateDistance => OpenMaps(ds).collection
    case AddRecord(freshId) => AddNewDestination(ds, freshId)
    case EditRecord(id, e) => UpdateDestination(ds, id, e)
    case RemoveRecord(id, confirmed) => DeleteDestination(ds, id, confirmed)
  }

  /** The collection after a sequence of actions, first to last. */
  function Run(ds: seq<Destination>, actions: seq<Action>): seq<Destination>
    decreases |actions|
  {
    if actions == [] then ds else Run(Dispatch(ds, actions[0]), actions[1..])
  }

  /** The id a new record gets is not in use yet. */
  predicate Fresh(ds: seq<Destination>, a: Action)
  {
    a.AddRecord? ==> !HasId(ds, a.freshId)
  }

  predicate FreshRun(ds: seq<Destination>, actions: seq<Action>)
    decreases |actions|
  {
    actions == [] || (Fresh(ds, actions[0]) && FreshRun(Dispatch(ds, actions[0]), actions[1..]))
  }

  /** Ids identify records and at most two of them are selected. */
  predicate Invariant(ds: seq<Destination>)
  {
    UniqueIds(ds) && SelectedCount(ds) <= MaxSelection
  }

  lemma {:induction false} SameIdsUnique(a: seq<Destination>, b: seq<Destination>)
    requires Ids(a) == Ids(b) && UniqueIds(a)
    ensures UniqueIds(b)
  {
    forall i, j | 0 <= i < |b| && 0 <= j < |b| && b[i].id == b[j].id
      ensures i == j
    {
      assert Ids(a)[i] == Ids(b)[i] && Ids(a)[j] == Ids(b)[j];
    }
  }

  /** Dropping one record keeps the remaining ids unique. */
  lemma {:induction false} RemoveAtKeepsUnique(ds: seq<Destination>, k: nat)
    requires UniqueIds(ds) && k < |ds|
    ensures UniqueIds(ds[..k] + ds[k + 1..])
  {
    var r := ds[..k] + ds[k + 1..];
    forall i, j | 0 <= i < |r| && 0 <= j < |r| && r[i].id == r[j].id
      ensures i == j
    {
      var i' := if i < k then i else i + 1;
      var j' := if j < k then j else j + 1;
      assert r[i] == ds[i'] && r[j] == ds[j'];
    }
  }

  /** Dropping one record never raises the selected count. */
  lemma {:induction false} RemoveAtKeepsCount(ds: seq<Destination>, k: nat)
    requires k < |ds|
    ensures SelectedCount(ds[..k] + ds[k + 1..]) <= SelectedCount(ds)
  {
    FilterSplitAt(ds, k, IsSelected);
    FilterAppend(ds[..k], ds[k + 1..], IsSelected);
  }

  /** Removing a record keeps ids unique and can only lower the selected count. */
  lemma {:induction false} DeleteKeepsInvariant(ds: seq<Destination>, id: string, confirmed: bool)
    requires Invariant(ds)
    ensures Invariant(DeleteDestination(ds, id, confirmed))
  {
    if confirmed {
      if HasId(ds, id) {
        var k :| 0 <= k < |ds| && ds[k].id == id;
        DeleteRemovesOne(ds, k);
        RemoveAtKeepsUnique(ds, k);
        RemoveAtKeepsCount(ds, k);
      } else {
        FilterKeepsAll(ds, OtherThan(id));
      }
    }
  }

  /** Every action keeps the invariant, the selection cap included. */
  lemma {:induction false} DispatchKeepsInvariant(ds: seq<Destination>, a: Action)
    requires Invariant(ds) && Fresh(ds, a)
    ensures Invariant(Dispatch(ds, a))
  {
    match a
    case TapRecord(id) =>
      SameIdsUnique(ds, ToggleComplete(ds, id));
      SameFlagsSameCount(ds, ToggleComplete(ds, id));
    case TapSelect(id) =>
      ToggleSelectionKeepsCap(ds, id);
      SameIdsUnique(ds, ToggleSelection(ds, id).collection);
    case CalculateDistance =>
      if OpenMaps(ds).route.Some? {
        var r := ClearAllSelections(ds);
        assert Ids(r) == Ids(ds);
        SameIdsUnique(ds, r);
      }
    case AddRecord(freshId) =>
      AddKeepsInvariant(ds, freshId);
    case EditRecord(id, e) =>
      UpdateKeepsSelection(ds, id, e);
      SameIdsUnique(ds, UpdateDestination(ds, id, e));
    case RemoveRecord(id, confirmed) =>
      DeleteKeepsInvariant(ds, id, confirmed);
  }

  /** The selection cap holds after any sequence of actions that hands out fresh ids. */
  lemma {:induction false} RunKeepsInvariant(ds: seq<Destination>, actions: seq<Action>)
    requires Invariant(ds) && FreshRun(ds, actions)
    ensures Invariant(Run(ds, actions))
    decreases |actions|
  {
    if actions != [] {
      DispatchKeepsInvariant(ds, actions[0]);
      RunKeepsInvariant(Dispatch(ds, actions[0]), actions[1..]);
    }
  }

  /** Nothing selected: select two records, try a third. The first two are selected, the third
      is refused with the warning, and the collection is left as it was. */
  lemma {:induction false} ThirdSelectionRefused(ds: seq<Destination>, a: nat, b: nat, c: nat)
    requires UniqueIds(ds) && SelectedCount(ds) == 0
    requires a < |ds| && b < |ds| && c < |ds| && a != b && b != c && a != c
    ensures var two := Run(ds, [TapSelect(ds[a].id), TapSelect(ds[b].id)]);
      && |two| == |ds|
      && two[a].selectedForDistance && two[b].selectedForDistance && !two[c].selectedForDistance
      && ToggleSelection(two, ds[c].id) == Step(two, Some(CapWarning))
  {
    var two := SelectTwo(ds, a, b);
    NothingSelected(ds);
    assert two[c] == ds[c];
    ToggleSelectionRefusal(two, c);
  }

  /** From no selection, selecting the records at `a` and `b` marks exactly those two. */
  lemma {:induction false} SelectTwo(ds: seq<Destination>, a: nat, b: nat) returns (two: seq<Destination>)
    requires UniqueIds(ds) && SelectedCount(ds) == 0
    requires a < |ds| && b < |ds| && a != b
    ensures two == Run(ds, [TapSelect(ds[a].id), TapSelect(ds[b].id)])
    ensures |two| == |ds| && UniqueIds(two) && SelectedCount(two) == 2
    ensures two[a] == ds[a].(selectedForDistance := true)
    ensures two[b] == ds[b].(selectedForDistance := true)
    ensures forall i :: 0 <= i < |ds| && i != a && i != b ==> two[i] == ds[i]
  {
    NothingSelected(ds);
    var one := SelectAt(ds, a);
    assert one[b] == ds[b];
    two := SelectAt(one, b);
    RunTwoSelections(ds, ds[a].id, ds[b].id);
  }

  /** Selecting an unselected record below the cap, with unique ids: a point update that keeps
      ids unique. */
  lemma {:induction false} SelectAt(ds: seq<Destination>, k: nat) returns (r: seq<Destination>)
    requires UniqueIds(ds) && k < |ds|
    requires !ds[k].selectedForDistance && SelectedCount(ds) < MaxSelection
    ensures r == ToggleSelection(ds, ds[k].id).collection
    ensures r == ds[k := ds[k].(selectedForDistance := true)]
    ensures UniqueIds(r) && SelectedCount(r) == SelectedCount(ds) + 1
  {
    ToggleSelectionSelects(ds, k);
    r := ToggleSelection(ds, ds[k].id).collection;
    assert Ids(r) == Ids(ds);
    SameIdsUnique(ds, r);
  }

  lemma {:induction false} RunTwoSelections(ds: seq<Destination>, x: string, y: string)
    ensures Run(ds, [TapSelect(x), TapSelect(y)])
         == ToggleSelection(ToggleSelection(ds, x).collection, y).collection
  {
    var acts := [TapSelect(x), TapSelect(y)];
    var one := Dispatch(ds, TapSelect(x));
    assert acts[1..] == [TapSelect(y)];
    assert Run(ds, acts) == Run(one, [TapSelect(y)]);
    assert [TapSelect(y)][1..] == [];
    assert Run(one, [TapSelect(y)]) == Run(Dispatch(one, TapSelect(y)), []);
  }

  lemma {:induction false} NothingSelected(ds: seq<Destination>)
    requires SelectedCount(ds) == 0
    ensures forall i :: 0 <= i < |ds| ==> !ds[i].selectedForDistance
  {
    FilterKeeps(ds, IsSelected);
  }

  /** Select two records in either order, then calculate the distance: the route runs from the
      one earlier in the collection to the later one, and afterwards nothing is selected. */
  lemma {:induction false} DistanceAfterTwoSelections(ds: seq<Destination>, a: nat, b: nat)
    requires UniqueIds(ds) && SelectedCount(ds) == 0
    requires a < |ds| && b < |ds| && a != b
    ensures var two := Run(ds, [TapSelect(ds[a].id), TapSelect(ds[b].id)]);
      var first, second := if a < b then a else b, if a < b then b else a;
      && OpenMaps(two).route == Some(Route(ds[first].name, ds[second].name))
      && Selected(OpenMaps(two).collection) == []
  {
    var two := SelectTwo(ds, a, b);
    if a < b {
      OpenMapsRoute(two, a, b);
    } else {
      OpenMapsRoute(two, b, a);
    }
  }

  /** A new record goes to the very end of the day-sorted list: its day is at least every other
      record's, and it comes last in the collection. Nothing else moves. This is the order of both
      the edit list and the sections read top to bottom. */
  lemma {:induction false} AddedRecordListedLast(ds: seq<Destination>, freshId: string)
    ensures SortByDay(AddNewDestination(ds, freshId)) == SortByDay(ds) + [NewDestination(ds, freshId)]
    ensures Flatten(SectionsOf(AddNewDestination(ds, freshId)))
         == Flatten(SectionsOf(ds)) + [NewDestination(ds, freshId)]
  {
    var x := NewDestination(ds, freshId);
    var added := AddNewDestination(ds, freshId);
    var sorted := SortByDay(ds);
    var candidate := sorted + [x];
    SortByDayPermutes(ds);
    forall i, j | 0 <= i < j < |candidate|
      ensures candidate[i].day <= candidate[j].day
    {
      if j == |sorted| {
        assert sorted[i] in multiset(ds);
        var k :| 0 <= k < |ds| && ds[k] == sorted[i];
      }
    }
    forall v: nat
      ensures OnDay(candidate, v) == OnDay(added, v)
    {
      FilterAppend(sorted, [x], (d: Destination) => d.day == v);
      FilterAppend(ds, [x], (d: Destination) => d.day == v);
      SortByDayKeepsDay(ds, v);
    }
    SortByDayIsStable(added);
    StableSortUnique(candidate, SortByDay(added));
    SectionsLayout(ds);
    SectionsLayout(added);
  }
}

=== FILE: sections.dfy ===
/** The `sections` memo: the collection, stably sorted by day (0 when missing), grouped under the day with 0 read as 1
    into an object keyed by day, and turned into one `"Day k"` section per key in the order
    `Object.keys` lists them. Array-index keys (integers below 2^32 - 1) of an ordinary object
    are listed in ascending numeric order (OrdinaryOwnPropertyKeys, section 10.1.11.1 of
    ECMA-262), whatever order they were added in; larger keys are listed in creation order,
    which is ascending too here because the sorted records are pushed in ascending day order.
    Days are unbounded naturals in this model; see the README for where JavaScript numbers
    part from them. */
module Sections {
  import opened Optional
  import opened Seqs
  import opened Destinations
  import opened DaySort
  import opened JsNumbers

  /** `SectionData`: a header title and the records listed under it. */
  datatype Section = Section(title: string, data: seq<Destination>)

  /** The days a collection is listed under. */
  function DaysOf(s: seq<Destination>): set<nat>
  {
    set i | 0 <= i < |s| :: GroupDay(s[i])
  }

  function InGroupOf(k: nat): Destination -> bool
  {
    (d: Destination) => GroupDay(d) == k
  }

  /** The records listed under day `k`, in the order of `s`. */
  function InGroup(s: seq<Destination>, k: nat): (r: seq<Destination>)
    ensures forall i :: 0 <= i < |r| ==> GroupDay(r[i]) == k
  {
    Filter(s, InGroupOf(k))
  }

  /** A day has records exactly when some record of the collection is listed under it. */
  lemma {:induction false} InGroupEmpty(s: seq<Destination>, k: nat)
    ensures InGroup(s, k) == [] <==> k !in DaysOf(s)
  {
    if k in DaysOf(s) {
      var i :| 0 <= i < |s| && GroupDay(s[i]) == k;
      FilterKeeps(s, InGroupOf(k));
      assert s[i] in InGroup(s, k);
    } else {
      FilterKeepsNone(s, InGroupOf(k));
    }
  }

  lemma {:induction false} InGroupSnoc(s: seq<Destination>, x: Destination)
    ensures forall k: nat :: InGroup(s + [x], k) == InGroup(s, k) + (if GroupDay(x) == k then [x] else [])
  {
    forall k: nat
      ensures InGroup(s + [x], k) == InGroup(s, k) + (if GroupDay(x) == k then [x] else [])
    {
      FilterAppend(s, [x], InGroupOf(k));
      assert [x][1..] == [];
    }
  }

  lemma {:induction false} DaysOfSnoc(s: seq<Destination>, x: Destination)
    ensures DaysOf(s + [x]) == DaysOf(s) + {GroupDay(x)}
  {
    var t := s + [x];
    forall k | k in DaysOf(t)
      ensures k in DaysOf(s) + {GroupDay(x)}
    {
      var i :| 0 <= i < |t| && GroupDay(t[i]) == k;
      if i < |s| {
        assert t[i] == s[i];
      }
    }
    forall k | k in DaysOf(s)
      ensures k in DaysOf(t)
    {
      var i :| 0 <= i < |s| && GroupDay(s[i]) == k;
      assert t[i] == s[i];
    }
    assert GroupDay(t[|s|]) == GroupDay(x);
  }

  /** One step of the grouping loop: append `d` to its day's array, creating the array on first use. */
  function Push(g: map<nat, seq<Destination>>, d: Destination): map<nat, seq<Destination>>
  {
    var k := GroupDay(d);
    g[k := (if k in g then g[k] else []) + [d]]
  }

  /** The grouping loop: pushes the records one by one, in order. The object ends up with one
      key per day listed, holding that day's records in the order of `s`. */
  function GroupByDay(s: seq<Destination>): (g: map<nat, seq<Destination>>)
    ensures g.Keys == DaysOf(s)
    ensures forall k :: k in g ==> g[k] == InGroup(s, k)
  {
    if s == [] then map[]
    else
      var front, last := s[..|s| - 1], s[|s| - 1];
      assert s == front + [last];
      var g := GroupByDay(front);
      InGroupSnoc(front, last);
      DaysOfSnoc(front, last);
      InGroupEmpty(front, GroupDay(last));
      Push(g, last)
  }

  /** The grouped object described directly: one key per listed day, holding that day's records. */
  function Grouped(s: seq<Destination>): map<nat, seq<Destination>>
  {
    map k | k in DaysOf(s) :: InGroup(s, k)
  }

  /** The grouping loop builds exactly the grouped object. */
  lemma {:induction false} GroupByDayIsGrouped(s: seq<Destination>)
    ensures GroupByDay(s) == Grouped(s)
  {
    var g, h := GroupByDay(s), Grouped(s);
    assert g.Keys == h.Keys;
    forall k | k in g
      ensures g[k] == h[k]
    {
    }
  }

  predicate StrictlyAscending(ks: seq<nat>)
  {
    forall i, j :: 0 <= i < j < |ks| ==> ks[i] < ks[j]
  }

  /** A set of naturals holding `n` has a least element, found by descending from `n`. */
  lemma {:induction false} MinimumExists(ks: set<nat>, n: nat)
    requires n in ks
    ensures exists m :: m in ks && forall k :: k in ks ==> m <= k
    decreases n
  {
    if k :| k in ks && k < n {
      MinimumExists(ks, k);
    } else {
      assert n in ks && forall k :: k in ks ==> n <= k;
    }
  }

  /** Putting the least key in front of the ascending listing of the other keys lists them all. */
  lemma {:induction false} ConsLeast(ks: set<nat>, m: nat, rest: seq<nat>)
    requires m in ks && forall k :: k in ks ==> m <= k
    requires StrictlyAscending(rest)
    requires forall i :: 0 <= i < |rest| ==> rest[i] in ks - {m}
    requires forall k :: k in ks - {m} ==> k in rest
    ensures StrictlyAscending([m] + rest)
    ensures forall i :: 0 <= i < |[m] + rest| ==> ([m] + rest)[i] in ks
    ensures forall k :: k in ks ==> k in [m] + rest
  {
    var r := [m] + rest;
    forall i, j | 0 <= i < j < |r|
      ensures r[i] < r[j]
    {
      assert r[j] == rest[j - 1];
      if i > 0 {
        assert r[i] == rest[i - 1];
      }
    }
    forall i | 0 <= i < |r|
      ensures r[i] in ks
    {
      if i > 0 {
        assert r[i] == rest[i - 1];
      }
    }
    forall k | k in ks
      ensures k in r
    {
      if k != m {
        assert k in ks - {m};
      }
    }
  }

  /** The least element of a non-empty set of naturals. */
  function Least(ks: set<nat>): (m: nat)
    requires ks != {}
    ensures m in ks && forall k :: k in ks ==> m <= k
  {
    var some :| some in ks;
    MinimumExists(ks, some);
    var m :| m in ks && forall k :: k in ks ==> m <= k;
    m
  }

  /** `Object.keys` on the grouped object: every key once, in ascending order. */
  function AscendingKeys(ks: set<nat>): (r: seq<nat>)
    ensures StrictlyAscending(r)
    ensures forall i :: 0 <= i < |r| ==> r[i] in ks
    ensures forall k :: k in ks ==> k in r
    decreases ks
  {
    if ks == {} then []
    else
      var m := Least(ks);
      var rest := AscendingKeys(ks - {m});
      ConsLeast(ks, m, rest);
      [m] + rest
  }

  /** The section for key `k` as the memo builds it: `Object.keys` hands over `k` as its decimal
      text, the title is "Day " followed by that text, and the data is the group that `parseInt`
      of the text finds, which is the group of `k` itself. */
  function SectionAsWritten(g: map<nat, seq<Destination>>, k: nat): (sec: Section)
    requires k in g
    ensures sec.title == "Day " + NatToString(k)
    ensures sec.data == g[k]
  {
    var key := NatToString(k);
    ParseIntNatToString(k);
    Section("Day " + key, g[ParseInt(key).value])
  }

  /** The section for key `k`, its group looked up by the key itself. */
  function SectionFor(g: map<nat, seq<Destination>>, k: nat): Section
    requires k in g
  {
    Section("Day " + NatToString(k), g[k])
  }

  /** One section per key, in the order the keys are given. */
  function SectionsOver(g: map<nat, seq<Destination>>, keys: seq<nat>): seq<Section>
    requires forall i :: 0 <= i < |keys| ==> keys[i] in g
  {
    seq(|keys|, i requires 0 <= i < |keys| => SectionFor(g, keys[i]))
  }

  /** The `sections` memo step by step: sort, run the grouping loop, list the keys, and build
      each section through the `parseInt` lookup. */
  function SectionsAsWritten(ds: seq<Destination>): seq<Section>
  {
    var sorted := SortByDay(ds);
    var grouped := GroupByDay(sorted);
    var keys := AscendingKeys(grouped.Keys);
    seq(|keys|, i requires 0 <= i < |keys| => SectionAsWritten(grouped, keys[i]))
  }

  /** The `sections` memo, reading the grouped object directly. */
  function SectionsOf(ds: seq<Destination>): seq<Section>
  {
    var sorted := SortByDay(ds);
    var grouped := Grouped(sorted);
    SectionsOver(grouped, AscendingKeys(grouped.Keys))
  }

  /** The memo as written and the memo read directly are the same list of sections. */
  lemma {:induction false} SectionsAsWrittenAgree(ds: seq<Destination>)
    ensures SectionsAsWritten(ds) == SectionsOf(ds)
  {
    var sorted := SortByDay(ds);
    GroupByDayIsGrouped(sorted);
  }

  /** What `SectionList` shows, top to bottom: every section's records, one after the other. */
  function Flatten(secs: seq<Section>): seq<Destination>
  {
    if secs == [] then [] else secs[0].data + Flatten(secs[1..])
  }

  // ---------------------------------------------------------------------------------------------
  // What the sections are

  /** The days that get a section, in the order they are shown. */
  function ListedDays(ds: seq<Destination>): seq<nat>
  {
    AscendingKeys(DaysOf(ds))
  }

  predicate GroupSorted(s: seq<Destination>)
  {
    forall i, j :: 0 <= i < j < |s| ==> GroupDay(s[i]) <= GroupDay(s[j])
  }

  /** The groups of `ks`, one after the other. */
  function Gather(s: seq<Destination>, ks: seq<nat>): seq<Destination>
  {
    if ks == [] then [] else InGroup(s, ks[0]) + Gather(s, ks[1..])
  }

  lemma {:induction false} GatherEmpty(ks: seq<nat>)
    ensures Gather([], ks) == []
  {
    if ks != [] {
      GatherEmpty(ks[1..]);
    }
  }

  /** A head record listed under none of the days `ks` contributes nothing to their groups. */
  lemma {:induction false} GatherSkip(s: seq<Destination>, ks: seq<nat>)
    requires s != []
    requires forall i :: 0 <= i < |ks| ==> ks[i] != GroupDay(s[0])
    ensures Gather(s, ks) == Gather(s[1..], ks)
  {
    if ks != [] {
      assert InGroup(s, ks[0]) == InGroup(s[1..], ks[0]);
      GatherSkip(s, ks[1..]);
    }
  }

  /** A head record with the least listed day among `s` opens the gathering. */
  lemma {:induction false} GatherCons(s: seq<Destination>, ks: seq<nat>)
    requires s != [] && StrictlyAscending(ks) && GroupDay(s[0]) in ks
    requires forall i :: 0 <= i < |s| ==> GroupDay(s[0]) <= GroupDay(s[i])
    ensures Gather(s, ks) == [s[0]] + Gather(s[1..], ks)
  {
    var k := GroupDay(s[0]);
    if ks[0] == k {
      assert InGroup(s, k) == [s[0]] + InGroup(s[1..], k);
      GatherSkip(s, ks[1..]);
    } else {
      assert forall i :: 0 <= i < |s[1..]| ==> s[1..][i] == s[i + 1];
      FilterKeepsNone(s[1..], InGroupOf(ks[0]));
      assert InGroup(s, ks[0]) == [];
      var j :| 0 <= j < |ks| && ks[j] == k;
      assert ks[1..][j - 1] == k;
      GatherCons(s, ks[1..]);
    }
  }

  /** Gathering the groups of a collection ordered by listed day, over all its days in ascending
      order, gives the collection back. */
  lemma {:induction false} GatherAll(s: seq<Destination>, ks: seq<nat>)
    requires GroupSorted(s) && StrictlyAscending(ks)
    requires forall i :: 0 <= i < |s| ==> GroupDay(s[i]) in ks
    ensures Gather(s, ks) == s
  {
    if s == [] {
      GatherEmpty(ks);
    } else {
      GatherCons(s, ks);
      GatherAll(s[1..], ks);
    }
  }

  lemma {:induction false} FlattenSections(g: map<nat, seq<Destination>>, keys: seq<nat>, s: seq<Destination>)
    requires forall i :: 0 <= i < |keys| ==> keys[i] in g && g[keys[i]] == InGroup(s, keys[i])
    ensures Flatten(SectionsOver(g, keys)) == Gather(s, keys)
  {
    if keys != [] {
      var r := SectionsOver(g, keys);
      assert r[1..] == SectionsOver(g, keys[1..]);
      FlattenSections(g, keys[1..], s);
    }
  }

  lemma {:induction false} DaysOfPermutation(a: seq<Destination>, b: seq<Destination>)
    requires multiset(a) == multiset(b)
    ensures DaysOf(a) == DaysOf(b)
  {
    forall k | k in DaysOf(a)
      ensures k in DaysOf(b)
    {
      var i :| 0 <= i < |a| && GroupDay(a[i]) == k;
      assert a[i] in multiset(b);
      var j :| 0 <= j < |b| && b[j] == a[i];
    }
    forall k | k in DaysOf(b)
      ensures k in DaysOf(a)
    {
      var i :| 0 <= i < |b| && GroupDay(b[i]) == k;
      assert b[i] in multiset(a);
      var j :| 0 <= j < |a| && a[j] == b[i];
    }
  }

  /** Section `i` is the `i`-th listed day with that day's records from the sorted collection. */
  lemma {:induction false} SectionsByDay(ds: seq<Destination>)
    ensures |SectionsOf(ds)| == |ListedDays(ds)|
    ensures forall i :: 0 <= i < |SectionsOf(ds)| ==>
      (SectionsOf(ds)[i] == Section("Day " + NatToString(ListedDays(ds)[i]), InGroup(SortByDay(ds), ListedDays(ds)[i])))
  {
    var sorted := SortByDay(ds);
    SortByDayPermutes(ds);
    DaysOfPermutation(sorted, ds);
    var g := Grouped(sorted);
    assert g.Keys == DaysOf(sorted);
    assert AscendingKeys(g.Keys) == ListedDays(ds);
  }

  /** No section is empty: every listed day has at least one record. */
  lemma {:induction false} SectionsNonEmpty(ds: seq<Destination>)
    ensures forall i :: 0 <= i < |SectionsOf(ds)| ==> SectionsOf(ds)[i].data != []
  {
    var sorted := SortByDay(ds);
    var ks := ListedDays(ds);
    var r := SectionsOf(ds);
    SectionsByDay(ds);
    SortByDayPermutes(ds);
    DaysOfPermutation(sorted, ds);
    forall i | 0 <= i < |r|
      ensures r[i].data != []
    {
      assert ks[i] in DaysOf(sorted);
      InGroupEmpty(sorted, ks[i]);
    }
  }

  /** The sections are those of the grouped sorted collection over the listed days. */
  lemma {:induction false} SectionsOverListedDays(ds: seq<Destination>)
    ensures forall i :: 0 <= i < |ListedDays(ds)| ==> ListedDays(ds)[i] in Grouped(SortByDay(ds))
    ensures SectionsOf(ds) == SectionsOver(Grouped(SortByDay(ds)), ListedDays(ds))
  {
    var sorted := SortByDay(ds);
    SortByDayPermutes(ds);
    DaysOfPermutation(sorted, ds);
    assert Grouped(sorted).Keys == DaysOf(ds);
  }

  /** Every record of the sorted collection is listed under one of the listed days, and the
      sorted collection is ordered by listed day too. */
  lemma {:induction false} SortedListed(ds: seq<Destination>)
    ensures GroupSorted(SortByDay(ds))
    ensures forall i :: 0 <= i < |SortByDay(ds)| ==> GroupDay(SortByDay(ds)[i]) in ListedDays(ds)
  {
    var sorted := SortByDay(ds);
    SortByDayPermutes(ds);
    DaysOfPermutation(sorted, ds);
    forall i | 0 <= i < |sorted|
      ensures GroupDay(sorted[i]) in ListedDays(ds)
    {
      assert GroupDay(sorted[i]) in DaysOf(sorted);
    }
  }

  /** Read top to bottom, the sections are the stable sort of the collection by day. */
  lemma {:induction false} SectionsFlatten(ds: seq<Destination>)
    ensures Flatten(SectionsOf(ds)) == SortByDay(ds)
  {
    var sorted := SortByDay(ds);
    var g := Grouped(sorted);
    var ks := ListedDays(ds);
    SectionsOverListedDays(ds);
    FlattenSections(g, ks, sorted);
    SortedListed(ds);
    GatherAll(sorted, ks);
  }

  /** The layout of `sections`: one section per listed day, in ascending day order, titled
      `"Day k"`, never empty, holding only records listed under that day; read top to bottom
      the sections show exactly the stable sort of the collection by day, so every record
      exactly once. */
  lemma {:induction false} SectionsLayout(ds: seq<Destination>)
    ensures |SectionsOf(ds)| == |ListedDays(ds)|
    ensures forall i :: 0 <= i < |SectionsOf(ds)| ==>
      SectionsOf(ds)[i].title == "Day " + NatToString(ListedDays(ds)[i])
    ensures forall i :: 0 <= i < |SectionsOf(ds)| ==> SectionsOf(ds)[i].data != []
    ensures forall i, m :: 0 <= i < |SectionsOf(ds)| && 0 <= m < |SectionsOf(ds)[i].data| ==>
      GroupDay(SectionsOf(ds)[i].data[m]) == ListedDays(ds)[i]
    ensures Flatten(SectionsOf(ds)) == SortByDay(ds)
    ensures multiset(Flatten(SectionsOf(ds))) == multiset(ds)
  {
    SectionsByDay(ds);
    SectionsNonEmpty(ds);
    SectionsFlatten(ds);
    SortByDayPermutes(ds);
  }

  /** Taking one day's records out of a collection ordered by day keeps them ordered by day. */
  lemma {:induction false} InGroupSorted(s: seq<Destination>, k: nat)
    requires SortedByDay(s)
    ensures SortedByDay(InGroup(s, k))
  {
    if s != [] {
      var t := s[1..];
      assert SortedByDay(t) by {
        assert forall i :: 0 <= i < |t| ==> t[i] == s[i + 1];
      }
      InGroupSorted(t, k);
      var rest := InGroup(t, k);
      InGroupLowerBound(t, k, s[0].day);
      if GroupDay(s[0]) == k {
        HeadSorted(s[0], rest);
      }
    }
  }

  /** A lower bound on the days of a collection bounds the days of each of its groups. */
  lemma {:induction false} InGroupLowerBound(s: seq<Destination>, k: nat, lo: nat)
    requires forall i :: 0 <= i < |s| ==> lo <= s[i].day
    ensures forall j :: 0 <= j < |InGroup(s, k)| ==> lo <= InGroup(s, k)[j].day
  {
    if s != [] {
      assert forall i :: 0 <= i < |s[1..]| ==> s[1..][i] == s[i + 1];
      InGroupLowerBound(s[1..], k, lo);
      var tail := InGroup(s[1..], k);
      if GroupDay(s[0]) == k {
        assert InGroup(s, k) == [s[0]] + tail;
        assert forall j :: 1 <= j < |InGroup(s, k)| ==> InGroup(s, k)[j] == tail[j - 1];
      } else {
        assert InGroup(s, k) == tail;
      }
    }
  }

  lemma {:induction false} HeadSorted(x: Destination, rest: seq<Destination>)
    requires SortedByDay(rest)
    requires forall j :: 0 <= j < |rest| ==> x.day <= rest[j].day
    ensures SortedByDay([x] + rest)
  {
    var r := [x] + rest;
    forall i, j | 0 <= i < j < |r|
      ensures r[i].day <= r[j].day
    {
      assert r[j] == rest[j - 1];
      if i > 0 {
        assert r[i] == rest[i - 1];
      }
    }
  }

  /** Inside every section the records are ordered by day. */
  lemma {:induction false} SectionsOrderedWithin(ds: seq<Destination>)
    ensures forall i :: 0 <= i < |SectionsOf(ds)| ==> SortedByDay(SectionsOf(ds)[i].data)
  {
    var r := SectionsOf(ds);
    SectionsByDay(ds);
    forall i | 0 <= i < |r|
      ensures SortedByDay(r[i].data)
    {
      InGroupSorted(SortByDay(ds), ListedDays(ds)[i]);
    }
  }

  /** A record whose day is 0 is listed under "Day 1". */
  lemma {:induction false} DayZeroUnderDayOne(ds: seq<Destination>)
    ensures forall i, m :: 0 <= i < |SectionsOf(ds)| && 0 <= m < |SectionsOf(ds)[i].data| ==>
      (SectionsOf(ds)[i].data[m].day == 0 ==> SectionsOf(ds)[i].title == "Day 1")
  {
    var r := SectionsOf(ds);
    SectionsByDay(ds);
    DayOneTitle();
    forall i, m | 0 <= i < |r| && 0 <= m < |r[i].data| && r[i].data[m].day == 0
      ensures r[i].title == "Day 1"
    {
      assert GroupDay(r[i].data[m]) == ListedDays(ds)[i] == 1;
    }
  }

  lemma DayOneTitle()
    ensures "Day " + NatToString(1) == "Day 1"
  {
    assert DigitChar(1) == '1';
  }

  /** Inside its section a day-0 record comes before every day-1 record. */
  lemma {:induction false} DayZeroListedFirst(ds: seq<Destination>)
    ensures forall i, p, q :: 0 <= i < |SectionsOf(ds)| && 0 <= p < q < |SectionsOf(ds)[i].data| ==>
      (SectionsOf(ds)[i].data[q].day == 0 ==> SectionsOf(ds)[i].data[p].day == 0)
  {
    SectionsOrderedWithin(ds);
  }

  /** No two sections share a title. */
  lemma {:induction false} SectionTitlesDistinct(ds: seq<Destination>)
    ensures forall i, j :: 0 <= i < j < |SectionsOf(ds)| ==> SectionsOf(ds)[i].title != SectionsOf(ds)[j].title
  {
    var r := SectionsOf(ds);
    var ks := ListedDays(ds);
    SectionsByDay(ds);
    forall i, j | 0 <= i < j < |r|
      ensures r[i].title != r[j].title
    {
      assert ks[i] < ks[j];
      if r[i].title == r[j].title {
        TitleInjective(ks[i], ks[j]);
      }
    }
  }

  lemma {:induction false} TitleInjective(a: nat, b: nat)
    requires "Day " + NatToString(a) == "Day " + NatToString(b)
    ensures a == b
  {
    var prefix := "Day ";
    assert NatToString(a) == ("Day " + NatToString(a))[|prefix|..];
    assert NatToString(b) == ("Day " + NatToString(b))[|prefix|..];
    NatToStringInjective(a, b);
  }
}

=== FILE: seqs.dfy ===
/** Order-preserving filtering of sequences, the list primitive (`Array.prototype.filter`) the
    screen's selection and delete are built from. */
module Seqs {

  /** The elements of `s` that satisfy `p`, in their original order. */
  function Filter<T>(s: seq<T>, p: T -> bool): (r: seq<T>)
    ensures |r| <= |s|
    ensures forall i :: 0 <= i < |r| ==> p(r[i])
  {
    if s == [] then []
    else (if p(s[0]) then [s[0]] else []) + Filter(s[1..], p)
  }

  /** Filtering only ever drops elements. */
  lemma {:induction false} FilterSubMultiset<T>(s: seq<T>, p: T -> bool)
    ensures multiset(Filter(s, p)) <= multiset(s)
  {
    if s != [] {
      assert s == [s[0]] + s[1..];
      FilterSubMultiset(s[1..], p);
    }
  }

  /** Filtering distributes over concatenation, which is what "keeps the relative order" means. */
  lemma {:induction false} FilterAppend<T>(a: seq<T>, b: seq<T>, p: T -> bool)
    ensures Filter(a + b, p) == Filter(a, p) + Filter(b, p)
  {
    if a == [] {
      assert a + b == b;
    } else {
      assert (a + b)[0] == a[0];
      assert (a + b)[1..] == a[1..] + b;
      FilterAppend(a[1..], b, p);
    }
  }

  /** Filtering around one position: what comes before it, the element itself, what comes after. */
  lemma {:induction false} FilterSplitAt<T>(s: seq<T>, k: nat, p: T -> bool)
    requires k < |s|
    ensures Filter(s, p) == Filter(s[..k], p) + (if p(s[k]) then [s[k]] else []) + Filter(s[k + 1..], p)
  {
    assert s == s[..k] + ([s[k]] + s[k + 1..]);
    FilterAppend(s[..k], [s[k]] + s[k + 1..], p);
    assert ([s[k]] + s[k + 1..])[1..] == s[k + 1..];
  }

  /** Every element that satisfies `p` is kept. */
  lemma {:induction false} FilterKeeps<T>(s: seq<T>, p: T -> bool)
    ensures forall k :: 0 <= k < |s| && p(s[k]) ==> s[k] in Filter(s, p)
  {
    forall k | 0 <= k < |s| && p(s[k])
      ensures s[k] in Filter(s, p)
    {
      FilterSplitAt(s, k, p);
    }
  }

  /** Replacing one element changes the number of kept elements only by what that element contributes. */
  lemma {:induction false} FilterUpdateCount<T>(s: seq<T>, k: nat, y: T, p: T -> bool)
    requires k < |s|
    ensures |Filter(s[k := y], p)| + (if p(s[k]) then 1 else 0)
         == |Filter(s, p)| + (if p(y) then 1 else 0)
  {
    FilterSplitAt(s, k, p);
    FilterSplitAt(s[k := y], k, p);
    assert s[k := y][..k] == s[..k] && s[k := y][k + 1..] == s[k + 1..];
  }

  /** Filtering with a predicate every element satisfies keeps the whole sequence. */
  lemma {:induction false} FilterKeepsAll<T>(s: seq<T>, p: T -> bool)
    requires forall i :: 0 <= i < |s| ==> p(s[i])
    ensures Filter(s, p) == s
  {
    if s != [] {
      FilterKeepsAll(s[1..], p);
    }
  }

  /** Filtering with a predicate no element satisfies keeps nothing. */
  lemma {:induction false} FilterKeepsNone<T>(s: seq<T>, p: T -> bool)
    requires forall i :: 0 <= i < |s| ==> !p(s[i])
    ensures Filter(s, p) == []
  {
    if s != [] {
      FilterKeepsNone(s[1..], p);
    }
  }

  /** A slice whose elements all satisfy `p` survives filtering whole. */
  lemma {:induction false} FilterKeepsSlice<T>(s: seq<T>, lo: nat, hi: nat, p: T -> bool)
    requires lo <= hi <= |s|
    requires forall m :: lo <= m < hi ==> p(s[m])
    ensures Filter(s[lo..hi], p) == s[lo..hi]
  {
    var part := s[lo..hi];
    forall m | 0 <= m < |part|
      ensures p(part[m])
    {
      assert part[m] == s[lo + m];
    }
    FilterKeepsAll(part, p);
  }

  /** Filtering out exactly one position removes that element and keeps the rest in order. */
  lemma {:induction false} FilterDropsOne<T>(s: seq<T>, k: nat, p: T -> bool)
    requires k < |s| && !p(s[k])
    requires forall m :: 0 <= m < |s| && m != k ==> p(s[m])
    ensures Filter(s, p) == s[..k] + s[k + 1..]
  {
    FilterKeepsSlice(s, 0, k, p);
    FilterKeepsSlice(s, k + 1, |s|, p);
    assert s[0..k] == s[..k] && s[k + 1..|s|] == s[k + 1..];
    FilterSplitAt(s, k, p);
  }

  /** When exactly two elements are kept and positions `i < j` both satisfy `p`, those are the two. */
  lemma {:induction false} FilterExactlyTwo<T>(s: seq<T>, i: nat, j: nat, p: T -> bool)
    requires i < j < |s| && p(s[i]) && p(s[j])
    requires |Filter(s, p)| == 2
    ensures Filter(s, p) == [s[i], s[j]]
  {
    var front := s[..j];
    FilterSplitAt(s, j, p);
    FilterSplitAt(front, i, p);
    assert front[i] == s[i];
  }
}

=== FILE: store.dfy ===
/** The screen's actions on the destination collection. Each action is atomic: it reads one
    collection and returns the next one, with the warning or route it produces beside it. */
module Store {
  import opened Optional
  import opened Seqs
  import opened Destinations
  import opened JsNumbers

  /** Applies `change` to every record carrying `id` and keeps the rest: the shape shared by the
      per-record actions. */
  function MapMatching(ds: seq<Destination>, id: string, change: Destination -> Destination): (r: seq<Destination>)
    ensures |r| == |ds|
    ensures forall i :: 0 <= i < |ds| && ds[i].id != id ==> r[i] == ds[i]
    ensures forall i :: 0 <= i < |ds| && ds[i].id == id ==> r[i] == change(ds[i])
  {
    seq(|ds|, i requires 0 <= i < |ds| => if ds[i].id == id then change(ds[i]) else ds[i])
  }

  function FlipCompleted(d: Destination): Destination
  {
    d.(completed := !d.completed)
  }

  function FlipSelected(d: Destination): Destination
  {
    d.(selectedForDistance := !d.selectedForDistance)
  }

  // ---------------------------------------------------------------------------------------------
  // toggleComplete

  /** Flips `completed` on exactly the records carrying `id`; nothing else moves or changes. */
  function ToggleComplete(ds: seq<Destination>, id: string): (r: seq<Destination>)
    ensures Ids(r) == Ids(ds)
    ensures forall i :: 0 <= i < |ds| ==> r[i].(completed := ds[i].completed) == ds[i]
    ensures forall i :: 0 <= i < |ds| ==> (r[i].completed != ds[i].completed <==> ds[i].id == id)
  {
    MapMatching(ds, id, FlipCompleted)
  }

  /** Toggling the same record twice restores the collection. */
  lemma {:induction false} ToggleCompleteTwice(ds: seq<Destination>, id: string)
    ensures ToggleComplete(ToggleComplete(ds, id), id) == ds
  {
    var once := ToggleComplete(ds, id);
    var twice := ToggleComplete(once, id);
    assert forall i :: 0 <= i < |ds| ==> twice[i] == ds[i];
  }

  // ---------------------------------------------------------------------------------------------
  // toggleSelection

  /** The collection after an action, and the warning the action raised, if any. */
  datatype Step = Step(collection: seq<Destination>, warning: Option<string>)

  /** `toggleSelection`: an unknown id does nothing; selecting an unselected record while the cap
      is already reached is refused with a warning; otherwise the selection flag is flipped. */
  function ToggleSelection(ds: seq<Destination>, id: string): (r: Step)
    ensures !HasId(ds, id) ==> r == Step(ds, None)
    ensures r.warning.Some? ==> r == Step(ds, Some(CapWarning))
    ensures r.warning.Some? ==> SelectedCount(ds) >= MaxSelection
    ensures r.warning.None? ==> |r.collection| == |ds|
    ensures r.warning.None? ==> forall i :: 0 <= i < |ds| && ds[i].id != id ==> r.collection[i] == ds[i]
    ensures r.warning.None? ==> forall i :: 0 <= i < |ds| && ds[i].id == id ==>
      r.collection[i] == ds[i].(selectedForDistance := !ds[i].selectedForDistance)
  {
    match FindIndex(ds, id)
    case None => Step(ds, None)
    case Some(i) =>
      if !ds[i].selectedForDistance && SelectedCount(ds) >= MaxSelection then
        Step(ds, Some(CapWarning))
      else
        Step(MapMatching(ds, id, FlipSelected), None)
  }

  /** With unique ids, flipping the record at `k` is a point update of the collection. */
  lemma {:induction false} FlipSelectedAt(ds: seq<Destination>, k: nat)
    requires UniqueIds(ds) && k < |ds|
    ensures MapMatching(ds, ds[k].id, FlipSelected) == ds[k := FlipSelected(ds[k])]
  {
  }

  /** A refusal happens exactly when the target exists, is unselected, and the cap is reached. */
  lemma {:induction false} ToggleSelectionRefusal(ds: seq<Destination>, k: nat)
    requires UniqueIds(ds) && k < |ds|
    ensures ToggleSelection(ds, ds[k].id).warning == Some(CapWarning)
        <==> !ds[k].selectedForDistance && SelectedCount(ds) >= MaxSelection
  {
    FindIndexUnique(ds, ds[k].id, k);
  }

  /** Deselecting is never refused: the target becomes unselected, the count drops by exactly one,
      and no other record and no other field changes. */
  lemma {:induction false} ToggleSelectionDeselects(ds: seq<Destination>, k: nat)
    requires UniqueIds(ds) && k < |ds|
    requires ds[k].selectedForDistance
    ensures ToggleSelection(ds, ds[k].id).warning == None
    ensures ToggleSelection(ds, ds[k].id).collection == ds[k := ds[k].(selectedForDistance := false)]
    ensures SelectedCount(ToggleSelection(ds, ds[k].id).collection) + 1 == SelectedCount(ds)
  {
    FindIndexUnique(ds, ds[k].id, k);
    FlipSelectedAt(ds, k);
    FilterUpdateCount(ds, k, FlipSelected(ds[k]), IsSelected);
  }

  /** Selecting under the cap succeeds and raises the count by exactly one. */
  lemma {:induction false} ToggleSelectionSelects(ds: seq<Destination>, k: nat)
    requires UniqueIds(ds) && k < |ds|
    requires !ds[k].selectedForDistance && SelectedCount(ds) < MaxSelection
    ensures ToggleSelection(ds, ds[k].id).warning == None
    ensures ToggleSelection(ds, ds[k].id).collection == ds[k := ds[k].(selectedForDistance := true)]
    ensures SelectedCount(ToggleSelection(ds, ds[k].id).collection) == SelectedCount(ds) + 1
  {
    FindIndexUnique(ds, ds[k].id, k);
    FlipSelectedAt(ds, k);
    FilterUpdateCount(ds, k, FlipSelected(ds[k]), IsSelected);
  }

  /** The selection cap: with unique ids, no toggle takes a collection within the cap outside it.
      Ids, and so their uniqueness, are untouched. */
  lemma {:induction false} ToggleSelectionKeepsCap(ds: seq<Destination>, id: string)
    requires UniqueIds(ds) && SelectedCount(ds) <= MaxSelection
    ensures Ids(ToggleSelection(ds, id).collection) == Ids(ds)
    ensures SelectedCount(ToggleSelection(ds, id).collection) <= MaxSelection
  {
    if HasId(ds, id) {
      var k :| 0 <= k < |ds| && ds[k].id == id;
      if ds[k].selectedForDistance {
        ToggleSelectionDeselects(ds, k);
        IdsOfUpdate(ds, k, ds[k].(selectedForDistance := false));
      } else if SelectedCount(ds) < MaxSelection {
        ToggleSelectionSelects(ds, k);
        IdsOfUpdate(ds, k, ds[k].(selectedForDistance := true));
      } else {
        ToggleSelectionRefusal(ds, k);
      }
    }
  }

  /** Replacing a record by one with the same id keeps the ids. */
  lemma IdsOfUpdate(ds: seq<Destination>, k: nat, x: Destination)
    requires k < |ds| && x.id == ds[k].id
    ensures Ids(ds[k := x]) == Ids(ds)
  {
    assert forall i :: 0 <= i < |ds| ==> Ids(ds[k := x])[i] == Ids(ds)[i];
  }

  /** Without unique ids the cap does not hold: one toggle selects every record sharing the id,
      taking a collection with one selection to three. */
  lemma {:induction false} DuplicateIdsBreakCap(d: Destination, c: Destination)
    requires !d.selectedForDistance && c.selectedForDistance && c.id != d.id
    ensures SelectedCount([d, d, c]) == 1
    ensures SelectedCount(ToggleSelection([d, d, c], d.id).collection) == 3
  {
    var e := FlipSelected(d);
    SelectedCountOfThree(e, e, c);
    ToggleDuplicate(d, c);
    SelectedCountOfThree(d, d, c);
  }

  /** Toggling a duplicated id flips both records carrying it. */
  lemma {:induction false} ToggleDuplicate(d: Destination, c: Destination)
    requires !d.selectedForDistance && c.selectedForDistance && c.id != d.id
    ensures ToggleSelection([d, d, c], d.id).collection == [FlipSelected(d), FlipSelected(d), c]
  {
    var e := FlipSelected(d);
    var r := ToggleSelection([d, d, c], d.id);
    assert r.warning == None by {
      SelectedCountOfThree(d, d, c);
      assert FindIndex([d, d, c], d.id) == Some(0);
    }
    assert |r.collection| == 3;
    assert r.collection[0] == e && r.collection[1] == e && r.collection[2] == c;
  }

  lemma {:induction false} SelectedCountOfThree(a: Destination, b: Destination, c: Destination)
    ensures SelectedCount([a, b, c])
         == (if a.selectedForDistance then 1 else 0) + (if b.selectedForDistance then 1 else 0)
          + (if c.selectedForDistance then 1 else 0)
  {
    var s := [a, b, c];
    assert s[1..] == [b, c] && s[1..][1..] == [c] && [c][1..] == [];
    assert Filter([c], IsSelected) == (if c.selectedForDistance then [c] else []);
    assert Filter([b, c], IsSelected) == (if b.selectedForDistance then [b] else []) + Filter([c], IsSelected);
  }

  // ---------------------------------------------------------------------------------------------
  // openMaps

  /** Origin and destination names handed to the maps deep link. */
  datatype Route = Route(origin: string, destination: string)

  datatype MapsStep = MapsStep(collection: seq<Destination>, route: Option<Route>)

  /** Sets `selectedForDistance` to false everywhere and changes nothing else. */
  function ClearAllSelections(ds: seq<Destination>): (r: seq<Destination>)
    ensures |r| == |ds|
    ensures Selected(r) == []
    ensures forall i :: 0 <= i < |ds| ==> r[i].(selectedForDistance := ds[i].selectedForDistance) == ds[i]
  {
    var r := seq(|ds|, i requires 0 <= i < |ds| => ds[i].(selectedForDistance := false));
    FilterKeepsNone(r, IsSelected);
    r
  }

  /** `openMaps`: with exactly two records selected, routes from the first to the second and clears
      the selection (whatever the maps app does); with any other count it does nothing. */
  function OpenMaps(ds: seq<Destination>): (r: MapsStep)
    ensures r.route.Some? <==> SelectedCount(ds) == 2
    ensures r.route.None? ==> r.collection == ds
    ensures r.route.Some? ==> r.collection == ClearAllSelections(ds)
  {
    var selected := Selected(ds);
    if |selected| == 2 then
      MapsStep(ClearAllSelections(ds), Some(Route(selected[0].name, selected[1].name)))
    else
      MapsStep(ds, None)
  }

  /** The route runs from the earlier selected record to the later one, in collection order. */
  lemma {:induction false} OpenMapsRoute(ds: seq<Destination>, i: nat, j: nat)
    requires i < j < |ds|
    requires ds[i].selectedForDistance && ds[j].selectedForDistance
    requires SelectedCount(ds) == 2
    ensures OpenMaps(ds).route == Some(Route(ds[i].name, ds[j].name))
  {
    FilterExactlyTwo(ds, i, j, IsSelected);
  }

  // ---------------------------------------------------------------------------------------------
  // addNewDestination

  /** The largest listed day (a missing day counting as 1), and 1 for an empty collection. */
  function MaxGroupDay(ds: seq<Destination>): (m: nat)
    ensures m >= 1
    ensures forall i :: 0 <= i < |ds| ==> GroupDay(ds[i]) <= m
    ensures ds == [] ==> m == 1
    ensures ds != [] ==> exists i :: 0 <= i < |ds| && GroupDay(ds[i]) == m
  {
    if ds == [] then 1
    else
      var rest := MaxGroupDay(ds[1..]);
      assert forall i :: 1 <= i < |ds| ==> ds[i] == ds[1..][i - 1];
      if |ds| == 1 || GroupDay(ds[0]) >= rest then GroupDay(ds[0]) else rest
  }

  /** The record `addNewDestination` appends: empty name, nothing ticked, on the latest day. */
  function NewDestination(ds: seq<Destination>, freshId: string): (d: Destination)
    ensures d.id == freshId && d.name == "" && !d.completed && !d.selectedForDistance
    ensures d.day >= 1
    ensures forall i :: 0 <= i < |ds| ==> ds[i].day <= d.day
    ensures ds == [] ==> d.day == 1
    ensures forall i :: 0 <= i < |ds| ==> GroupDay(ds[i]) <= d.day
    ensures ds != [] ==> exists i :: 0 <= i < |ds| && GroupDay(ds[i]) == d.day
  {
    Destination(freshId, "", MaxGroupDay(ds), false, false)
  }

  /** `addNewDestination`: appends one record and leaves the existing ones where they were.
      The fresh id is a parameter in place of the clock reading the screen uses. */
  function AddNewDestination(ds: seq<Destination>, freshId: string): (r: seq<Destination>)
    ensures |r| == |ds| + 1
    ensures r[..|ds|] == ds
    ensures r[|ds|] == NewDestination(ds, freshId)
  {
    ds + [NewDestination(ds, freshId)]
  }

  /** A fresh id keeps ids unique, and adding never changes the selection count. */
  lemma {:induction false} AddKeepsInvariant(ds: seq<Destination>, freshId: string)
    requires UniqueIds(ds) && !HasId(ds, freshId)
    ensures UniqueIds(AddNewDestination(ds, freshId))
    ensures SelectedCount(AddNewDestination(ds, freshId)) == SelectedCount(ds)
  {
    FilterAppend(ds, [NewDestination(ds, freshId)], IsSelected);
  }

  // ---------------------------------------------------------------------------------------------
  // updateDestination

  /** The edits the edit view makes: a new name, or a new day. */
  datatype Edit = SetName(name: string) | SetDay(day: nat)

  function ApplyEdit(d: Destination, e: Edit): Destination
  {
    match e
    case SetName(n) => d.(name := n)
    case SetDay(k) => d.(day := k)
  }

  /** `updateDestination`: changes only the edited field, and only on records carrying `id`. */
  function UpdateDestination(ds: seq<Destination>, id: string, e: Edit): (r: seq<Destination>)
    ensures Ids(r) == Ids(ds)
    ensures forall i :: 0 <= i < |ds| && ds[i].id != id ==> r[i] == ds[i]
    ensures forall i :: 0 <= i < |ds| && ds[i].id == id ==>
      match e
      case SetName(n) => r[i].name == n && r[i].(name := ds[i].name) == ds[i]
      case SetDay(k) => r[i].day == k && r[i].(day := ds[i].day) == ds[i]
  {
    MapMatching(ds, id, d => ApplyEdit(d, e))
  }

  /** An edit never touches the selection flags, so the selected count is unchanged. */
  lemma {:induction false} UpdateKeepsSelection(ds: seq<Destination>, id: string, e: Edit)
    ensures SelectedCount(UpdateDestination(ds, id, e)) == SelectedCount(ds)
  {
    var r := UpdateDestination(ds, id, e);
    SameFlagsSameCount(ds, r);
  }

  /** Two collections with the same flags position by position have the same selected count. */
  lemma {:induction false} SameFlagsSameCount(a: seq<Destination>, b: seq<Destination>)
    requires |a| == |b|
    requires forall i :: 0 <= i < |a| ==> a[i].selectedForDistance == b[i].selectedForDistance
    ensures SelectedCount(a) == SelectedCount(b)
  {
    if a != [] {
      SameFlagsSameCount(a[1..], b[1..]);
    }
  }

  /** The day stored for the text typed into a day field: what `parseInt` reads, with NaN
      falling back to 0. */
  function DayFromInput(text: string): (v: int)
    ensures v < 0 ==> TrimStart(text) != [] && TrimStart(text)[0] == '-'
  {
    match ParseInt(text)
    case None => 0
    case Some(v) => v
  }

  /** The text a day field shows: the decimal day, and an empty field for day 0. */
  function DayText(day: nat): (t: string)
    ensures t == [] <==> day == 0
    ensures forall i :: 0 <= i < |t| ==> '0' <= t[i] <= '9'
  {
    if day == 0 then "" else NatToString(day)
  }

  /** What a day field shows is read back as the same day. */
  lemma {:induction false} DayFieldRoundTrip(day: nat)
    ensures DayFromInput(DayText(day)) == day
  {
    if day == 0 {
      assert TrimStart("") == "";
      assert ParseUnsigned("") == None;
    } else {
      ParseIntOfDecimal(day, "");
      assert NatToString(day) + "" == NatToString(day);
    }
  }

  /** Text typed on the number pad (digits only) is stored as the decimal number it spells,
      leading zeros ignored; an emptied field stores 0. */
  lemma {:induction false} NumberPadDay(text: string)
    requires forall i :: 0 <= i < |text| ==> '0' <= text[i] <= '9'
    ensures DayFromInput(text) == DigitsValue(text, 10)
    ensures DayFromInput(text) >= 0
  {
    if text != [] {
      assert !IsStrWhiteSpace(text[0]);
      TrimStartOfWord(text);
      UnsignedNoSign(text);
      assert text + [] == text;
      DecimalDigits(text, []);
    } else {
      assert ParseUnsigned(text) == None;
    }
  }

  /** The day field's change handler: store the day read from `text` on the records carrying `id`.
      Days are natural numbers here, so the text must not read as a negative number. */
  function EditDayText(ds: seq<Destination>, id: string, text: string): (r: seq<Destination>)
    requires DayFromInput(text) >= 0
    ensures Ids(r) == Ids(ds)
    ensures forall i :: 0 <= i < |ds| && ds[i].id != id ==> r[i] == ds[i]
    ensures forall i :: 0 <= i < |ds| && ds[i].id == id ==>
      r[i].day == DayFromInput(text) && r[i].(day := ds[i].day) == ds[i]
  {
    UpdateDestination(ds, id, SetDay(DayFromInput(text)))
  }

  // ---------------------------------------------------------------------------------------------
  // deleteDestination

  /** The filter `deleteDestination` keeps: records not carrying `id`. */
  function OtherThan(id: string): Destination -> bool
  {
    (d: Destination) => d.id != id
  }

  /** `deleteDestination` after the confirmation dialog: `confirmed` is the user's answer. */
  function DeleteDestination(ds: seq<Destination>, id: string, confirmed: bool): (r: seq<Destination>)
    ensures !confirmed ==> r == ds
    ensures confirmed ==> !HasId(r, id)
    ensures confirmed ==> forall i :: 0 <= i < |ds| && ds[i].id != id ==> ds[i] in r
    ensures confirmed && !HasId(ds, id) ==> r == ds
    ensures multiset(r) <= multiset(ds)
  {
    if confirmed then
      FilterKeeps(ds, OtherThan(id));
      FilterSubMultiset(ds, OtherThan(id));
      assert !HasId(ds, id) ==> Filter(ds, OtherThan(id)) == ds by {
        if !HasId(ds, id) {
          FilterKeepsAll(ds, OtherThan(id));
        }
      }
      Filter(ds, OtherThan(id))
    else ds
  }

  /** A confirmed delete works on each part of a collection separately, so the records it keeps
      stay in their collection order. */
  lemma {:induction false} DeleteAppend(a: seq<Destination>, b: seq<Destination>, id: string)
    ensures DeleteDestination(a + b, id, true) == DeleteDestination(a, id, true) + DeleteDestination(b, id, true)
  {
    FilterAppend(a, b, OtherThan(id));
  }

  /** With unique ids, a confirmed delete removes exactly the one record and keeps the others in order. */
  lemma {:induction false} DeleteRemovesOne(ds: seq<Destination>, k: nat)
    requires UniqueIds(ds) && k < |ds|
    ensures DeleteDestination(ds, ds[k].id, true) == ds[..k] + ds[k + 1..]
  {
    var id := ds[k].id;
    assert forall m :: 0 <= m < |ds| && m != k ==> OtherThan(id)(ds[m]);
    FilterDropsOne(ds, k, OtherThan(id));
  }
}
